=== FILE: README.md ===
# Presto on Spark: query execution and its transaction protocol

This project is a Dafny model of the coordinator side of a Presto-on-Spark
query: `PrestoSparkQueryExecutionFactory.create` and
`PrestoSparkQueryExecution`. It covers three things:

- **Creation.** `create` begins an auto-commit transaction. It binds the
  transaction to a new session, then plans the query on that session
  (`Creation.Create`).
- **Execution.** `execute` checks that the root fragment has exactly one
  remote source. Inside a `try`, it collects the distributed input, runs the
  root task locally and commits. On a `RuntimeException` it attempts a
  rollback. If the rollback throws a `RuntimeException` that is a different
  object, it is attached as suppressed. Then the completion event reports the
  failure and the failure is rethrown. If the rollback throws an `Error`
  instead, that `Error` leaves at once, with no completion event. On success
  it reports completion and turns every result page into rows
  (`Execution.Execute`).
- **Result conversion.** `getPageValues` makes one row per position and one
  cell per channel (`Pages.PageValues`). It throws at the first cell, in
  position-then-channel order, whose channel has no type or whose value is
  null. The stream flattens the pages in list order (`Pages.Materialize`).

The model is functional. A run of `execute` produces a *trace* of the
coordinator's actions, then either the rows or the exception that leaves
`execute`:

- the trace records collect, the root task, `asyncCommit`, `asyncAbort`,
  `addSuppressed`, the completion event, page deserialisation and the final
  throw;
- a thrown exception is a primary exception together with its suppressed
  list.

The collaborators are parameters of an environment (`Execution.Env`):

- the outcome of `rdd.collect()`;
- the local task executor, as a function of the request it receives;
- the transaction manager's open transactions, once as commit's lookup sees
  them and once as rollback's second lookup sees them;
- the outcomes of the commit and abort futures;
- the page decoder and `Type.getObjectValue`, which may return null (`None`).

Exceptions have identities (`Failures.ExcId`), because the catch block compares
the execution failure and the rollback failure by reference:

- `External(n)` is an object thrown by a collaborator. The environment may
  hand back the same object twice.
- `Internal(k)` is the k-th exception the coordinator itself creates during
  the run (`getOnlyElement`, `checkState`, `List.get`,
  `ImmutableList.Builder.add`). It is always a new object.

A collaborator fault is either a `RuntimeException`, which the catch blocks
catch, or any other `Throwable` (`fatal`): a `java.lang.Error`, or a checked
exception that Scala code throws undeclared. The catch blocks let the second
kind through.

`commit` and `rollback` wait on their futures with airlift's `getFutureValue`
(lines 312 and 317). The environment's commit and abort outcomes are what
that call throws, not the futures' own failures. `getFutureValue` rethrows a
`RuntimeException` or an `Error` unchanged. It wraps any other cause, and an
interruption, in a new `RuntimeException`. So a commit or abort outcome is
`fatal` only for an `Error`. A future that fails with a checked exception is
caught by the catch block like any `RuntimeException`.

Consequences of the code that the model keeps:

- **Remote source count.** `getOnlyElement` (line 236) runs before the
  `try`. With zero or several remote sources, `execute` throws
  `NoSuchElementException` or `IllegalArgumentException` before anything is
  dispatched. Nothing is committed or rolled back and no completion event is
  sent, so the transaction begun by `create` is left open. Not every run of
  `execute` ends its transaction.
- **Planning failure.** `create` (lines 150-161) has no handler around
  preparation and planning. The planner's exception propagates and the
  transaction it has just begun stays open (`Creation.Create`). The same
  holds for session construction (lines 151-152), which runs after
  `beginTransaction` and is not modelled (see "Left out").
- **Fatal rollback failure.** When the rollback throws something other than a
  `RuntimeException`, the inner `catch (RuntimeException …)` does not catch
  it. It leaves `execute` in place of the original failure, and no completion
  event is sent (`Execution.AfterRollback`).
- **Failed commit.** When the commit future fails with a `RuntimeException`,
  the catch block runs `rollback`, which looks the transaction up again
  (lines 317 and 322-323). Whether `asyncAbort` follows the `asyncCommit`
  depends on what the transaction manager reports at that second lookup. If
  the transaction still passes both checks, the run issues both calls. If it
  does not, the commit failure is thrown with rollback's state error
  suppressed (`ExecutionLemmas.CommitFailureThenStateError`).
- **Unconvertible page.** A page with positions and more channels than
  output types makes `types.get` throw `IndexOutOfBoundsException`
  (`Pages.MissingTypeFailsFirstRow`). A NULL cell makes `getObjectValue`
  return null, and `ImmutableList.Builder.add` (line 303) throws
  `NullPointerException` for it. So a result that contains a NULL cannot be
  returned. Either exception is thrown after the commit and the success
  completion event, outside the `try`, so nothing is rolled back.

## Model

| member | source | states |
|---|---|---|
| Transactions.BeginTransaction | presto-spark-base/src/main/java/com/facebook/presto/spark/PrestoSparkQueryExecutionFactory.java:150 | a new transaction id, not open before, is registered with exactly the given auto-commit flag; nothing else in the manager changes |
| Sessions.LookupTransaction | presto-spark-base/src/main/java/com/facebook/presto/spark/PrestoSparkQueryExecutionFactory.java:322-323 | the lookup finds information exactly when the session is bound to a transaction the manager knows, and then it is that transaction's information |
| Creation.Create | presto-spark-base/src/main/java/com/facebook/presto/spark/PrestoSparkQueryExecutionFactory.java:148-188 | create begins one new auto-commit transaction and binds it before planning; the planner sees the bound session; a planning failure propagates unchanged with the transaction left open; the handle keeps the bound session, the plan and the update type |
| Creation.CreatedMetadata | presto-spark-base/src/main/java/com/facebook/presto/spark/PrestoSparkQueryExecutionFactory.java:280-288 | getOutputTypes is the root fragment's types and getUpdateType is the update type the planner returned for the bound session |
| Creation.CreatedTransactionUsable | presto-spark-base/src/main/java/com/facebook/presto/spark/PrestoSparkQueryExecutionFactory.java:150-152 | the session of a created handle passes both checks of getTransactionInfo against the manager create leaves behind, and resolves to the transaction create began |
| Failures.WithSuppressed | presto-spark-base/src/main/java/com/facebook/presto/spark/PrestoSparkQueryExecutionFactory.java:261-262 | addSuppressed is only applied to a different object; it keeps the primary exception and appends the new one at the end of the suppressed list |
| Pages.Columns | presto-spark-base/src/main/java/com/facebook/presto/spark/PrestoSparkQueryExecutionFactory.java:300-304 | the inner loop yields one cell per channel, in channel order, each being the non-null getObjectValue of that channel's type on that channel's block at the position, exactly when every cell converts; otherwise it throws at the first channel that has no type or a null value |
| Pages.RowsUpTo | presto-spark-base/src/main/java/com/facebook/presto/spark/PrestoSparkQueryExecutionFactory.java:298-306 | the outer loop yields one row per position, in position order, each equal to the reference row, exactly when every row converts; otherwise it throws at the first failing cell in position-then-channel order |
| Pages.PageValues | presto-spark-base/src/main/java/com/facebook/presto/spark/PrestoSparkQueryExecutionFactory.java:295-308 | getPageValues succeeds exactly when every cell converts, and then has positionCount rows of channelCount cells with the value of each type, block and position; otherwise it throws at the first failing cell in position-then-channel order, with IndexOutOfBounds for a missing type and NullPointer for a null value |
| Pages.PageValuesRow | presto-spark-base/src/main/java/com/facebook/presto/spark/PrestoSparkQueryExecutionFactory.java:298-306 | each row getPageValues builds equals the independently defined reference row |
| Pages.ConvertibleIff | presto-spark-base/src/main/java/com/facebook/presto/spark/PrestoSparkQueryExecutionFactory.java:300-303 | a page converts exactly when every channel has a type (or the page has no positions) and getObjectValue returns no null |
| Pages.MissingTypeFailsFirstRow | presto-spark-base/src/main/java/com/facebook/presto/spark/PrestoSparkQueryExecutionFactory.java:298-303 | a page with positions and a channel without a type throws on its first row: at the first missing type, or at a null value before it |
| Pages.Materialize | presto-spark-base/src/main/java/com/facebook/presto/spark/PrestoSparkQueryExecutionFactory.java:273-277 | the stream yields rows exactly when every page converts, and then as many rows as the pages' positions in total; otherwise it stops at the first page that throws, with that page's exception |
| Pages.MaterializeSlice | presto-spark-base/src/main/java/com/facebook/presto/spark/PrestoSparkQueryExecutionFactory.java:273-277 | the rows of page i in the flattened result are exactly getPageValues of page i, starting at the number of rows of the pages before it |
| Pages.MaterializeAt | presto-spark-base/src/main/java/com/facebook/presto/spark/PrestoSparkQueryExecutionFactory.java:273-277 | row p of page i sits at the number of rows of the pages before i plus p, and equals the reference row |
| Pages.MaterializeLayout | presto-spark-base/src/main/java/com/facebook/presto/spark/PrestoSparkQueryExecutionFactory.java:273-277 | the flattened result is the pages' getPageValues rows back to back in list order: nothing is dropped, duplicated or reordered |
| Execution.RootDescriptor | presto-spark-base/src/main/java/com/facebook/presto/spark/PrestoSparkQueryExecutionFactory.java:237-242 | the root task descriptor carries the session, its extra credentials, the root fragment, no splits and the table-write metadata |
| Execution.RootRequest | presto-spark-base/src/main/java/com/facebook/presto/spark/PrestoSparkQueryExecutionFactory.java:248-252 | the root task runs as task 0 of partition 0 and receives the collected input under the id of the only remote source, and nothing else |
| Execution.Decoded | presto-spark-base/src/main/java/com/facebook/presto/spark/PrestoSparkQueryExecutionFactory.java:273-275 | one page per result element, in list order, each decoded from that element's serialized page; partition ids are dropped |
| Execution.GetTransactionInfo | presto-spark-base/src/main/java/com/facebook/presto/spark/PrestoSparkQueryExecutionFactory.java:320-327 | succeeds exactly when the session's transaction is present and in auto-commit context, returning its information; otherwise a new state error whose message names the check that failed, presence first |
| Execution.Commit | presto-spark-base/src/main/java/com/facebook/presto/spark/PrestoSparkQueryExecutionFactory.java:310-313 | asyncCommit of the looked-up transaction is issued exactly when the checks pass; commit fails with exactly what getFutureValue throws for the commit future (a RuntimeException, a checked cause wrapped in one, or an Error), or, without issuing anything, with the new state error |
| Execution.Rollback | presto-spark-base/src/main/java/com/facebook/presto/spark/PrestoSparkQueryExecutionFactory.java:315-318 | rollback looks the transaction up again; asyncAbort of what that lookup found is issued exactly when its checks pass; rollback fails with exactly what getFutureValue throws for the abort future (a RuntimeException, a checked cause wrapped in one, or an Error) or, without issuing anything, with a new state error naming the failed check |
| Execution.TryBlock | presto-spark-base/src/main/java/com/facebook/presto/spark/PrestoSparkQueryExecutionFactory.java:246-255 | collect, then the root task on the collected input, then commit; the first failure stops the block; the block completes exactly when collect, the task, the checks and the commit future all succeed |
| Execution.AfterRollback | presto-spark-base/src/main/java/com/facebook/presto/spark/PrestoSparkQueryExecutionFactory.java:257-266 | a rollback RuntimeException is attached to the execution failure unless it is the same object; the completion event reports the execution failure, which is rethrown; a rollback Error replaces it, with no completion event |
| Execution.HandleFailure | presto-spark-base/src/main/java/com/facebook/presto/spark/PrestoSparkQueryExecutionFactory.java:256-266 | the catch block for a RuntimeException always throws; it opens with asyncAbort exactly when rollback's lookup passes the checks; it rethrows the original failure unless waiting on the abort future throws an Error; it never commits, sends the success event or converts a page |
| Execution.AfterTry | presto-spark-base/src/main/java/com/facebook/presto/spark/PrestoSparkQueryExecutionFactory.java:256-277 | after the try block nothing is committed; a caught exception always ends in a throw without the success event; after a commit the success event comes first and nothing is aborted |
| Execution.Finish | presto-spark-base/src/main/java/com/facebook/presto/spark/PrestoSparkQueryExecutionFactory.java:269-277 | after a commit, the success completion event comes first; rows are returned exactly when every page converts, else the first failing page's IndexOutOfBounds or NullPointer exception leaves, last |
| Execution.AfterCommit | presto-spark-base/src/main/java/com/facebook/presto/spark/PrestoSparkQueryExecutionFactory.java:255-277 | after a successful try block, rows come back exactly on the happy path, with the try block's three actions, the success event and one deserialisation per page; otherwise IndexOutOfBounds or NullPointer is thrown after the success event, and nothing is aborted |
| Execution.Execute | presto-spark-base/src/main/java/com/facebook/presto/spark/PrestoSparkQueryExecutionFactory.java:232-278 | zero or several remote sources fail before anything runs; rows are returned exactly on the happy path (which includes every result page converting), after collect, task, commit and completion in that order; a page that cannot be converted throws IndexOutOfBounds or NullPointer after the commit with no rollback |
| ExecutionLemmas.CatchBlockAborts | presto-spark-base/src/main/java/com/facebook/presto/spark/PrestoSparkQueryExecutionFactory.java:256-259 | the catch block issues asyncAbort once when rollback's lookup passes the checks and never otherwise, and never issues asyncCommit |
| ExecutionLemmas.CatchBlockRaises | presto-spark-base/src/main/java/com/facebook/presto/spark/PrestoSparkQueryExecutionFactory.java:256-266 | exactly which exception leaves the catch block and what it carries as suppressed, for each rollback outcome: none, an Error, the same object, a different object, or the rollback's own state error |
| ExecutionLemmas.RuntimeFailureRollsBackOnce | presto-spark-base/src/main/java/com/facebook/presto/spark/PrestoSparkQueryExecutionFactory.java:246-259 | a RuntimeException in the try block leads to exactly one asyncAbort when rollback's lookup passes the checks and none when it fails them |
| ExecutionLemmas.RuntimeFailureReturnsNoRows | presto-spark-base/src/main/java/com/facebook/presto/spark/PrestoSparkQueryExecutionFactory.java:256-270 | after a RuntimeException in the try block, execute throws, converts no page and never reports success |
| ExecutionLemmas.RuntimeFailureRethrown | presto-spark-base/src/main/java/com/facebook/presto/spark/PrestoSparkQueryExecutionFactory.java:256-266 | unless the rollback throws an Error, the very exception the try block raised is reported to the completion event and then rethrown, last |
| ExecutionLemmas.ErrorNotCaught | presto-spark-base/src/main/java/com/facebook/presto/spark/PrestoSparkQueryExecutionFactory.java:246-256 | an Error in the try block leaves execute as is: no rollback, no completion event |
| ExecutionLemmas.TryBlockEndsOnce | presto-spark-base/src/main/java/com/facebook/presto/spark/PrestoSparkQueryExecutionFactory.java:246-255 | the try block issues asyncCommit at most once and asyncAbort never |
| ExecutionLemmas.AfterTryEndsOnce | presto-spark-base/src/main/java/com/facebook/presto/spark/PrestoSparkQueryExecutionFactory.java:256-277 | after the try block there is no asyncCommit and at most one asyncAbort, and a run with an asyncAbort ends in an exception |
| ExecutionLemmas.TransactionEndedAtMostOnce | presto-spark-base/src/main/java/com/facebook/presto/spark/PrestoSparkQueryExecutionFactory.java:232-278 | in every run asyncCommit and asyncAbort are each issued at most once, and a run that aborted returns no rows |
| ExecutionLemmas.SuccessRows | presto-spark-base/src/main/java/com/facebook/presto/spark/PrestoSparkQueryExecutionFactory.java:269-277 | returned rows mean the happy path held, and they are getPageValues of each result page under the output types, page after page in result-list order |
| ExecutionLemmas.NullCellNotReturned | presto-spark-base/src/main/java/com/facebook/presto/spark/PrestoSparkQueryExecutionFactory.java:269-277 | after a successful commit, a null value at any typed cell of any result page makes execute throw after the success event instead of returning rows, with nothing aborted |
| ExecutionLemmas.StateErrorSkipsAsyncCalls | presto-spark-base/src/main/java/com/facebook/presto/spark/PrestoSparkQueryExecutionFactory.java:310-327 | a failed check skips the call it guards: no asyncCommit when commit's lookup finds the transaction absent or not auto-commit, no asyncAbort when rollback's lookup does |
| ExecutionLemmas.StateErrorCarriesRollbackError | presto-spark-base/src/main/java/com/facebook/presto/spark/PrestoSparkQueryExecutionFactory.java:254-266 | when both lookups fail the checks after a successful task, commit's state error is thrown carrying rollback's state error, a second object, as its only suppressed exception |
| ExecutionLemmas.CommitFailureThenStateError | presto-spark-base/src/main/java/com/facebook/presto/spark/PrestoSparkQueryExecutionFactory.java:254-266 | when the commit future fails with a RuntimeException and rollback's lookup no longer passes, no asyncAbort is issued and the commit failure is thrown with rollback's state error suppressed, in the stated action order |
| ExecutionLemmas.TryBlockAsyncCalls | presto-spark-base/src/main/java/com/facebook/presto/spark/PrestoSparkQueryExecutionFactory.java:310-313 | the try block never aborts, and it commits only a transaction that passed the checks, using the looked-up id |
| ExecutionLemmas.AfterTryAsyncCalls | presto-spark-base/src/main/java/com/facebook/presto/spark/PrestoSparkQueryExecutionFactory.java:315-318 | after the try block nothing is committed, and only a transaction that passed the checks on rollback's lookup is aborted, using that lookup's id |
| ExecutionLemmas.AsyncCallsUseBoundTransaction | presto-spark-base/src/main/java/com/facebook/presto/spark/PrestoSparkQueryExecutionFactory.java:310-323 | every asyncCommit names the transaction commit's lookup resolved to, and every asyncAbort the one rollback's lookup resolved to, each only after its checks passed |
| ExecutionLemmas.CreatedQueryReachesTransaction | presto-spark-base/src/main/java/com/facebook/presto/spark/PrestoSparkQueryExecutionFactory.java:150-152 | running a created handle commits or aborts only the transaction create began, whatever each lookup reports, as long as the manager files every transaction under its own id |
| ExecutionLemmas.CreatedQueryNoStateError | presto-spark-base/src/main/java/com/facebook/presto/spark/PrestoSparkQueryExecutionFactory.java:320-327 | when commit's lookup sees the manager create leaves behind, the exception a created handle's run throws is never a state error; a state error from rollback's second lookup can still be attached to it as suppressed |
| ExecutionLemmas.CreatedQueryNoStateErrorAnywhere | presto-spark-base/src/main/java/com/facebook/presto/spark/PrestoSparkQueryExecutionFactory.java:320-327 | when both lookups see the manager create leaves behind, no state error appears in what the run throws, neither as the thrown exception nor among its suppressed exceptions |
| ExecutionLemmas.CreatedQuerySucceeds | presto-spark-base/src/main/java/com/facebook/presto/spark/PrestoSparkQueryExecutionFactory.java:232-278 | a created handle with one remote source returns rows whenever collect, the task, the commit future and every page conversion succeed, a conversion succeeding when no cell has a missing type or a null value |

## Left out

- Spark plumbing (`JavaSparkContext`, the RDD factory, `rdd.collect()`): the collected input is an environment parameter, and a collect failure is one fault.
- Query preparation, planning, fragmentation and split enumeration (lines 160-164): these are one planner function of the bound session. Only its plan and update type are kept.
- The task executor factory and the local task itself: these are a function from the request to its output pages or a fault.
- JSON encoding of the task descriptor (line 243) and of task statistics: the descriptor is kept as a value. Encoding failures are not modelled.
- `deserializePage` (lines 290-293): page decoding is a total function parameter. The compression setting of the serde and decoding failures are not modelled.
- `Type.getObjectValue` and the connector session: these are a function of type, block and position that returns a value or null. The type system is not modelled.
- The task statistics collector and `createQueryInfo` (lines 336-346): they return nothing the run uses. `createQueryInfo` JSON-decodes every task statistic (line 341). A decode failure is not modelled. It would replace the rethrown exception inside the catch block (line 265), or throw after the commit (line 270). `queryCompletedEvent` is kept as a trace entry carrying the reported failure. `queryCreatedEvent` and warning collection are comments or no-ops in the source.
- Credential providers and the session context construction (line 149): the context is given. Session properties are an opaque map.
- Creation.Create: `sessionSupplier.createSession(...).beginTransactionId(...)` (lines 151-152) cannot fail in the model. In the source it is a collaborator call that runs after `beginTransaction` (line 150), so if it throws, the exception leaves `create` and the transaction just begun stays open, as in the planning-failure case.
- The transaction manager's own bookkeeping: the state of an open transaction after `asyncCommit` or `asyncAbort`, and the futures' threads. Commit's lookup and rollback's lookup each read their own snapshot of the open transactions, and the two are unrelated. An abort future fails or succeeds as the environment says.
- Pages.PageValues: Java's 32-bit `int` loop counters over positions and channels are unbounded naturals here. A page cannot hold more than 2^31-1 positions, so this does not change behaviour.
- Logging of the distributed plan (line 163).
- airlift's `getFutureValue` (lines 312 and 317) is not part of this model. Its wrapping of a checked cause or an interruption in a new `RuntimeException` is folded into the environment's commit and abort outcomes. The wrapper's instance number is whatever the environment gives it. The model does not force that number to differ from the other collaborators' exceptions.
- Exception identity (`Failures.ExcId`): a collaborator's exception is an instance number plus a kind chosen by each collaborator. The same number can come with different kinds from two collaborators, which a single Java object cannot do. Nothing in the model compares kinds across instances, so this does not change any stated property.

=== FILE: creation.dfy ===
/**
 * PrestoSparkQueryExecutionFactory.create, reduced to what the execution
 * protocol depends on: the transaction is begun in auto-commit mode and
 * bound to the session before the query is prepared and planned, and the
 * handle keeps the plan and the update type.
 *
 * Preparation, planning, fragmentation and split enumeration are one
 * collaborator, `planner`, which sees the bound session and either returns
 * a plan or throws.
 */
module Creation {
  import opened Wrappers
  import opened Failures
  import opened Pages
  import opened Transactions
  import opened Sessions
  import opened Plans

  /** The caller's session description, after the credential providers have been applied. */
  datatype SessionContext = SessionContext(identity: Identity, properties: map<string, string>)

  /** The observable steps of create, in the order the source takes them. */
  datatype CreationStep =
    | CreateQueryId(queryId: QueryId)
    | OpenTransaction(autoCommit: bool)
    | BindTransaction(transactionId: TxId)
    | PrepareAndPlan(session: Session)
    | RegisterStatsCollector
    | CreateRdd

  /** PrestoSparkQueryExecution: the handle that `execute` runs on. */
  datatype QueryExecution = QueryExecution(session: Session, plan: SparkPlan, updateType: Option<string>)

  /** The steps taken, the transaction manager afterwards, the transaction begun, and the handle or the planner's failure. */
  datatype CreateResult = CreateResult(
    steps: seq<CreationStep>,
    manager: TxManager,
    transactionId: TxId,
    handle: Attempt<QueryExecution>)

  function Create(queryId: QueryId, context: SessionContext, tm: TxManager,
                  planner: Session -> Attempt<PlanAndUpdateType>): (c: CreateResult)
    requires tm.Valid()
    // exactly one new transaction, in auto-commit mode, whatever planning does
    ensures c.manager.Valid()
    ensures c.transactionId !in tm.transactions
    ensures c.manager.transactions == tm.transactions[c.transactionId := TxInfo(c.transactionId, true)]
    // the transaction is begun and bound before the planner runs, and the planner sees the bound session
    ensures |c.steps| >= 4
    ensures c.steps[1] == OpenTransaction(true) && c.steps[2] == BindTransaction(c.transactionId)
    ensures c.steps[3].PrepareAndPlan? && c.steps[3].session.transactionId == Some(c.transactionId)
    ensures forall i :: 0 <= i < 3 ==> !c.steps[i].PrepareAndPlan?
    // a planning failure surfaces unchanged, and nothing is dispatched
    ensures c.handle.Failed? <==> planner(c.steps[3].session).Failed?
    ensures c.handle.Failed? ==> c.handle.fault == planner(c.steps[3].session).fault && |c.steps| == 4
    // the handle runs in the bound session and keeps what the planner returned
    ensures c.handle.Done? ==>
      && c.handle.value.session == c.steps[3].session
      && c.handle.value.session.queryId == queryId
      && c.handle.value.session.identity == context.identity
      && c.handle.value.plan == planner(c.steps[3].session).value.plan
      && c.handle.value.updateType == planner(c.steps[3].session).value.updateType
  {
    var (t, tm') := BeginTransaction(tm, true);
    var session := Session(queryId, context.identity, context.properties, Some(t));
    var prefix := [CreateQueryId(queryId), OpenTransaction(true), BindTransaction(t), PrepareAndPlan(session)];
    match planner(session)
    case Failed(fault) => CreateResult(prefix, tm', t, Failed(fault))
    case Done(planned) =>
      CreateResult(prefix + [RegisterStatsCollector, CreateRdd], tm', t,
               Done(QueryExecution(session, planned.plan, planned.updateType)))
  }

  /** getOutputTypes: the root fragment's types. */
  function OutputTypes(q: QueryExecution): seq<ColumnType> {
    q.plan.root.types
  }

  /** getUpdateType. */
  function UpdateType(q: QueryExecution): Option<string> {
    q.updateType
  }

  /**
   * The metadata of a created handle is what the planner produced for the
   * bound session; it is read from the handle alone, so `execute` (which
   * returns no new handle) cannot change it.
   */
  lemma CreatedMetadata(queryId: QueryId, context: SessionContext, tm: TxManager,
                        planner: Session -> Attempt<PlanAndUpdateType>)
    requires tm.Valid()
    ensures var c := Create(queryId, context, tm, planner);
      c.handle.Done? ==>
        && OutputTypes(c.handle.value) == planner(c.steps[3].session).value.plan.root.types
        && UpdateType(c.handle.value) == planner(c.steps[3].session).value.updateType
  {
  }

  /** A created handle's session passes both checks of getTransactionInfo against the manager create left behind. */
  lemma CreatedTransactionUsable(queryId: QueryId, context: SessionContext, tm: TxManager,
                                 planner: Session -> Attempt<PlanAndUpdateType>)
    requires tm.Valid()
    ensures var c := Create(queryId, context, tm, planner);
      c.handle.Done? ==>
        && TransactionUsable(c.handle.value.session, c.manager.transactions)
        && LookupTransaction(c.handle.value.session, c.manager.transactions).value.transactionId == c.transactionId
  {
  }
}

=== FILE: execution.dfy ===
/**
 * PrestoSparkQueryExecution.execute: the end-of-query transaction protocol
 * and the materialisation of the result.
 *
 * The collaborators are the environment: the outcome of collecting the
 * distributed input, the local task executor (a function of the request it
 * is given), the transaction manager's open transactions as commit and as
 * rollback look them up, the outcomes of
 * its asynchronous commit and abort, the page decoder and Type.getObjectValue.
 * A run records the actions the coordinator takes, in order, and ends in
 * either rows or a thrown exception.
 */
module Execution {
  import opened Wrappers
  import opened Failures
  import opened Pages
  import opened Transactions
  import opened Sessions
  import opened Plans
  import opened Creation

  type SerializedPage = seq<bv8>

  /** One element of the collected RDD: a partition id and a serialized page. */
  datatype TaggedPage = TaggedPage(partition: int, page: SerializedPage)

  /** The arguments of the local task executor's create call. */
  datatype TaskRequest = TaskRequest(
    taskId: int,
    partitionId: int,
    descriptor: TaskDescriptor,
    inputs: map<PlanNodeId, seq<TaggedPage>>)

  /**
   * The collaborators of one run. `asyncCommit` and `asyncAbort` are what
   * airlift's getFutureValue throws while waiting on the future, not the
   * future's own failure: getFutureValue rethrows a RuntimeException or an
   * Error cause unchanged and wraps any other cause, and an interruption, in
   * a new RuntimeException. So for these two fields `fatal` means an Error,
   * and a checked cause arrives as a non-fatal fault with an instance of its own.
   */
  datatype Env<!B, V> = Env(
    collect: Attempt<seq<TaggedPage>>,
    runTask: TaskRequest -> Attempt<seq<TaggedPage>>,
    transactions: map<TxId, TxInfo>,             // the open transactions when commit looks its transaction up
    transactionsAtRollback: map<TxId, TxInfo>,   // the open transactions when rollback looks it up again
    asyncCommit: Option<Fault>,     // what waiting on the commit future throws; None: it returns normally
    asyncAbort: Option<Fault>,      // what waiting on the abort future throws; None: it returns normally
    decode: SerializedPage -> Page<B>,
    value: (ColumnType, B, nat) -> Option<V>)   // Type.getObjectValue; None is Java's null

  datatype Action =
    | Collect
    | RunTask(request: TaskRequest)
    | AsyncCommit(transactionId: TxId)
    | AsyncAbort(transactionId: TxId)
    | AddSuppressed(target: ExcId, suppressed: ExcId)
    | Completed(failure: Option<ExcId>)
    | Deserialize(index: nat)
    | Throw(exception: ExcId)

  /** How many actions of a trace satisfy `p`. */
  function Count(trace: seq<Action>, p: Action -> bool): nat
  {
    if |trace| == 0 then 0 else (if p(trace[0]) then 1 else 0) + Count(trace[1..], p)
  }

  predicate IsCommit(a: Action) {
    a.AsyncCommit?
  }

  predicate IsAbort(a: Action) {
    a.AsyncAbort?
  }

  datatype Outcome<V> = Rows(rows: seq<seq<V>>) | Thrown(raised: Raised)

  datatype Run<V> = Run(trace: seq<Action>, outcome: Outcome<V>)

  const TransactionNotPresent := "transaction is not present"
  const NotAutoCommit := "transaction doesn't have auto commit context enabled"

  predicate SingleRemoteSource(q: QueryExecution) {
    |q.plan.root.remoteSources| == 1
  }

  /** The descriptor of the root task: the session, its extra credentials, the root fragment, no splits, the write metadata. */
  function RootDescriptor(q: QueryExecution): (d: TaskDescriptor)
    ensures d.fragment == q.plan.root && d.splits == []
    ensures d.session == ToRepresentation(q.session) && d.extraCredentials == q.session.identity.extraCredentials
    ensures d.tableWriteInfo == q.plan.tableWriteInfo
  {
    TaskDescriptor(ToRepresentation(q.session), q.session.identity.extraCredentials, q.plan.root, [], q.plan.tableWriteInfo)
  }

  /** The root task runs as task 0, partition 0, fed the collected pages under the id of the single remote source. */
  function RootRequest(q: QueryExecution, input: seq<TaggedPage>): (r: TaskRequest)
    requires SingleRemoteSource(q)
    ensures r.taskId == 0 && r.partitionId == 0 && r.descriptor == RootDescriptor(q)
    ensures r.inputs.Keys == {q.plan.root.remoteSources[0]} && r.inputs[q.plan.root.remoteSources[0]] == input
  {
    TaskRequest(0, 0, RootDescriptor(q), map[q.plan.root.remoteSources[0] := input])
  }

  /** The pages of the task output, decoded in list order; partition ids are dropped. */
  function Decoded<B, V>(env: Env<B, V>, output: seq<TaggedPage>): (pages: seq<Page<B>>)
    ensures |pages| == |output|
    ensures forall i :: 0 <= i < |output| ==> pages[i] == env.decode(output[i].page)
  {
    seq(|output|, i requires 0 <= i < |output| => env.decode(output[i].page))
  }

  /** The message of the state error getTransactionInfo raises for a lookup. */
  function StateMessage(lookup: Option<TxInfo>): string {
    if lookup.None? then TransactionNotPresent else NotAutoCommit
  }

  /**
   * getTransactionInfo: the session's transaction, provided it is present and
   * in auto-commit context; otherwise a new IllegalStateException, numbered
   * `ordinal` among the exceptions this run has created.
   */
  function GetTransactionInfo(session: Session, transactions: map<TxId, TxInfo>, ordinal: nat): (r: Result<TxInfo>)
    ensures r.Ok? <==> TransactionUsable(session, transactions)
    ensures r.Ok? ==> r.value == transactions[session.transactionId.value]
    ensures r.Err? ==> r.failure.id == Internal(ordinal)
    ensures r.Err? && !(session.transactionId.Some? && session.transactionId.value in transactions) ==>
      r.failure.kind == IllegalState(TransactionNotPresent)
    ensures r.Err? && session.transactionId.Some? && session.transactionId.value in transactions ==>
      r.failure.kind == IllegalState(NotAutoCommit)
  {
    var lookup := LookupTransaction(session, transactions);
    if lookup.Some? && lookup.value.autoCommit then Ok(lookup.value)
    else Err(Failure(Internal(ordinal), IllegalState(StateMessage(lookup))))
  }

  /** The id getTransactionInfo hands to asyncCommit: the one recorded in the transaction's information. */
  function BoundTransaction<B, V>(q: QueryExecution, env: Env<B, V>): TxId
    requires TransactionUsable(q.session, env.transactions)
  {
    LookupTransaction(q.session, env.transactions).value.transactionId
  }

  /** The id getTransactionInfo hands to asyncAbort, from rollback's own lookup. */
  function AbortedTransaction<B, V>(q: QueryExecution, env: Env<B, V>): TxId
    requires TransactionUsable(q.session, env.transactionsAtRollback)
  {
    LookupTransaction(q.session, env.transactionsAtRollback).value.transactionId
  }

  /** The actions of a commit or rollback, the exception it throws if any, and how many exceptions the run has created after it. */
  datatype Ending = Ending(actions: seq<Action>, failure: Option<Failure>, created: nat)

  function FutureFailure(f: Option<Fault>): Option<Failure> {
    match f
    case None => None
    case Some(fault) => Some(fault.ToFailure())
  }

  /** commit: the checks of getTransactionInfo, then asyncCommit and a wait for its future. */
  function Commit<B, V>(q: QueryExecution, env: Env<B, V>, ordinal: nat): (e: Ending)
    ensures |e.actions| <= 1
    ensures e.actions != [] <==> TransactionUsable(q.session, env.transactions)
    ensures e.actions != [] ==> e.actions[0] == AsyncCommit(BoundTransaction(q, env))
    ensures e.failure.None? <==> TransactionUsable(q.session, env.transactions) && env.asyncCommit.None?
    ensures e.actions != [] && e.failure.Some? ==> e.failure.value == env.asyncCommit.value.ToFailure()
    ensures e.actions == [] ==> e.failure.Some? && e.failure.value.id == Internal(ordinal) && e.failure.value.kind.IllegalState?
    ensures e.created == if e.actions == [] then ordinal + 1 else ordinal
  {
    match GetTransactionInfo(q.session, env.transactions, ordinal)
    case Err(f) => Ending([], Some(f), ordinal + 1)
    case Ok(info) => Ending([AsyncCommit(info.transactionId)], FutureFailure(env.asyncCommit), ordinal)
  }

  /** rollback: the checks of getTransactionInfo on a fresh lookup, then asyncAbort and a wait for its future. */
  function Rollback<B, V>(q: QueryExecution, env: Env<B, V>, ordinal: nat): (e: Ending)
    ensures |e.actions| <= 1
    ensures e.actions != [] <==> TransactionUsable(q.session, env.transactionsAtRollback)
    ensures e.actions != [] ==> e.actions[0] == AsyncAbort(AbortedTransaction(q, env))
    ensures e.failure.None? <==> TransactionUsable(q.session, env.transactionsAtRollback) && env.asyncAbort.None?
    ensures e.actions != [] && e.failure.Some? ==> e.failure.value == env.asyncAbort.value.ToFailure()
    ensures e.actions == [] ==>
      e.failure == Some(Failure(Internal(ordinal), IllegalState(StateMessage(LookupTransaction(q.session, env.transactionsAtRollback)))))
  {
    match GetTransactionInfo(q.session, env.transactionsAtRollback, ordinal)
    case Err(f) => Ending([], Some(f), ordinal + 1)
    case Ok(info) => Ending([AsyncAbort(info.transactionId)], FutureFailure(env.asyncAbort), ordinal)
  }

  datatype TryOutcome = Committed(output: seq<TaggedPage>) | Caught(failure: Failure)

  datatype TryRun = TryRun(trace: seq<Action>, outcome: TryOutcome, created: nat)

  /** The try block of execute: collect, run the root task on the collected input, commit. */
  function TryBlock<B, V>(q: QueryExecution, env: Env<B, V>): (t: TryRun)
    requires SingleRemoteSource(q)
    ensures 1 <= |t.trace| <= 3 && t.trace[0] == Collect
    ensures forall a <- t.trace :: a.Collect? || a.RunTask? || a.AsyncCommit?
    ensures env.collect.Failed? ==> t.trace == [Collect] && t.outcome == Caught(env.collect.fault.ToFailure())
    ensures env.collect.Done? ==> |t.trace| >= 2 && t.trace[1] == RunTask(RootRequest(q, env.collect.value))
    ensures env.collect.Done? && env.runTask(RootRequest(q, env.collect.value)).Failed? ==>
      t.trace == [Collect, RunTask(RootRequest(q, env.collect.value))] &&
      t.outcome == Caught(env.runTask(RootRequest(q, env.collect.value)).fault.ToFailure())
    ensures t.outcome.Committed? <==>
      && env.collect.Done?
      && env.runTask(RootRequest(q, env.collect.value)).Done?
      && TransactionUsable(q.session, env.transactions)
      && env.asyncCommit.None?
    ensures t.outcome.Committed? ==>
      && t.trace == [Collect, RunTask(RootRequest(q, env.collect.value)), AsyncCommit(BoundTransaction(q, env))]
      && t.outcome.output == env.runTask(RootRequest(q, env.collect.value)).value
      && t.created == 0
    ensures t.outcome.Caught? && t.outcome.failure.id.Internal? ==>
      && !TransactionUsable(q.session, env.transactions)
      && t.outcome.failure == Failure(Internal(0), IllegalState(StateMessage(LookupTransaction(q.session, env.transactions))))
      && t.created == 1
    ensures t.outcome.Caught? && !t.outcome.failure.id.Internal? ==> t.created == 0
  {
    match env.collect
    case Failed(fault) => TryRun([Collect], Caught(fault.ToFailure()), 0)
    case Done(input) =>
      var request := RootRequest(q, input);
      match env.runTask(request)
      case Failed(fault) => TryRun([Collect, RunTask(request)], Caught(fault.ToFailure()), 0)
      case Done(output) =>
        var c := Commit(q, env, 0);
        var trace := [Collect, RunTask(request)] + c.actions;
        if c.failure.Some? then TryRun(trace, Caught(c.failure.value), c.created)
        else TryRun(trace, Committed(output), c.created)
  }

  /**
   * What follows the rollback attempt in the catch block for a RuntimeException
   * f: a rollback RuntimeException is added to f as suppressed unless it is f
   * itself, then the completion event with f, and f is rethrown. An Error from
   * the rollback is not caught and leaves in place of f.
   */
  function AfterRollback<V>(f: Failure, rollbackFailure: Option<Failure>): (run: Run<V>)
    requires f.IsRuntime()
    ensures run.outcome.Thrown?
    ensures forall a <- run.trace :: a.AddSuppressed? || a.Throw? || (a.Completed? && a.failure == Some(f.id))
    ensures |run.trace| >= 1 && run.trace[|run.trace| - 1] == Throw(run.outcome.raised.primary.id)
    ensures match rollbackFailure
      case Some(rf) =>
        if !rf.IsRuntime() then run.outcome.raised == Raised(rf, []) && run.trace == [Throw(rf.id)]
        else
          && run.outcome.raised.primary == f
          && run.outcome.raised.suppressed == (if rf.id != f.id then [rf] else [])
          && |run.trace| >= 2 && run.trace[|run.trace| - 2] == Completed(Some(f.id))
      case None =>
        run.outcome.raised == Raised(f, []) && run.trace == [Completed(Some(f.id)), Throw(f.id)]
  {
    match rollbackFailure
    case None =>
      Run([Completed(Some(f.id)), Throw(f.id)], Thrown(Raised(f, [])))
    case Some(rf) =>
      if !rf.IsRuntime() then
        Run([Throw(rf.id)], Thrown(Raised(rf, [])))
      else if f.id != rf.id then
        Run([AddSuppressed(f.id, rf.id), Completed(Some(f.id)), Throw(f.id)], Thrown(WithSuppressed(Raised(f, []), rf)))
      else
        Run([Completed(Some(f.id)), Throw(f.id)], Thrown(Raised(f, [])))
  }

  /**
   * The catch block for a RuntimeException f: a rollback attempt, then what
   * AfterRollback describes. It always throws, opens with asyncAbort exactly
   * when rollback's lookup passes the checks, and rethrows f unless waiting
   * on the abort future throws an Error.
   */
  function HandleFailure<B, V>(q: QueryExecution, env: Env<B, V>, f: Failure, created: nat): (run: Run<V>)
    requires f.IsRuntime()
    ensures run.outcome.Thrown?
    ensures |run.trace| >= 1 && (run.trace[0].AsyncAbort? <==> TransactionUsable(q.session, env.transactionsAtRollback))
    ensures run.outcome.raised.primary == f <==>
      !(TransactionUsable(q.session, env.transactionsAtRollback) && env.asyncAbort.Some? && env.asyncAbort.value.fatal)
    ensures forall a <- run.trace :: !a.AsyncCommit? && !a.Deserialize? && a != Completed(None)
  {
    var rb := Rollback(q, env, created);
    var after := AfterRollback(f, rb.failure);
    Run(rb.actions + after.trace, after.outcome)
  }

  /**
   * What execute does once the try block has finished, normally or with an
   * exception. A caught exception always ends in a throw without the success
   * event; a commit leads with the success event and aborts nothing.
   */
  function AfterTry<B, V>(q: QueryExecution, env: Env<B, V>, t: TryRun): (run: Run<V>)
    ensures forall a <- run.trace :: !a.AsyncCommit?
    ensures t.outcome.Caught? ==> run.outcome.Thrown? && forall a <- run.trace :: a != Completed(None)
    ensures t.outcome.Committed? ==> |run.trace| >= 1 && run.trace[0] == Completed(None) && forall a <- run.trace :: !a.AsyncAbort?
  {
    match t.outcome
    case Caught(f) =>
      if !f.IsRuntime() then Run([Throw(f.id)], Thrown(Raised(f, [])))
      else HandleFailure(q, env, f, t.created)
    case Committed(output) =>
      Finish(q, env, output, t.created)
  }

  /** One Deserialize action per page, for pages 0 .. n-1, in list order. */
  function Deserializations(n: nat): (ds: seq<Action>)
    ensures |ds| == n && forall i :: 0 <= i < n ==> ds[i] == Deserialize(i)
  {
    seq(n, (i: int) requires 0 <= i => Deserialize(i))
  }

  /** The conditions under which execute returns rows. */
  predicate HappyPath<B, V>(q: QueryExecution, env: Env<B, V>) {
    && SingleRemoteSource(q)
    && env.collect.Done?
    && env.runTask(RootRequest(q, env.collect.value)).Done?
    && TransactionUsable(q.session, env.transactions)
    && env.asyncCommit.None?
    && AllConvertible(Decoded(env, env.runTask(RootRequest(q, env.collect.value)).value), OutputTypes(q), env.value)
  }

  /** The pages the root task returned, decoded; meaningful once collect and the task have succeeded. */
  function ResultPages<B, V>(q: QueryExecution, env: Env<B, V>): seq<Page<B>>
    requires SingleRemoteSource(q) && env.collect.Done? && env.runTask(RootRequest(q, env.collect.value)).Done?
  {
    Decoded(env, env.runTask(RootRequest(q, env.collect.value)).value)
  }

  /** The exception getPageValues throws for a cell that cannot be converted. */
  function ConversionKind(e: ConversionError): (k: Kind)
    ensures k == IndexOutOfBounds || k == NullPointer
  {
    match e
    case MissingType => IndexOutOfBounds
    case NullCell => NullPointer
  }

  /**
   * After a successful commit: the completion event without failure, then the
   * result pages are decoded and converted one after the other. A page that
   * cannot be converted throws, outside the try block, so nothing is rolled back.
   */
  function Finish<B, V>(q: QueryExecution, env: Env<B, V>, output: seq<TaggedPage>, created: nat): (run: Run<V>)
    ensures |run.trace| >= 1 && run.trace[0] == Completed(None)
    ensures forall a <- run.trace :: a == Completed(None) || a.Deserialize? || a.Throw?
    ensures run.outcome.Rows? <==> AllConvertible(Decoded(env, output), OutputTypes(q), env.value)
    ensures run.outcome.Rows? ==>
      && run.trace == [Completed(None)] + Deserializations(|output|)
      && |run.outcome.rows| == TotalPositions(Decoded(env, output))
    ensures run.outcome.Thrown? ==>
      var m := Materialize(Decoded(env, output), OutputTypes(q), env.value);
      && m.PageFailed?
      && run.outcome.raised == Raised(Failure(Internal(created), ConversionKind(m.failure.error)), [])
      && run.trace[|run.trace| - 1] == Throw(Internal(created))
  {
    var pages := Decoded(env, output);
    match Materialize(pages, OutputTypes(q), env.value)
    case AllRows(rows) =>
      Run([Completed(None)] + Deserializations(|pages|), Rows(rows))
    case PageFailed(k, cell) =>
      var e := Failure(Internal(created), ConversionKind(cell.error));
      Run([Completed(None)] + Deserializations(k + 1) + [Throw(e.id)], Thrown(Raised(e, [])))
  }

  function Execute<B, V>(q: QueryExecution, env: Env<B, V>): (run: Run<V>)
    // getOnlyElement fails before the try block: nothing is collected, run, committed or rolled back
    ensures !SingleRemoteSource(q) ==>
      && run.trace == [Throw(Internal(0))]
      && run.outcome == Thrown(Raised(Failure(Internal(0),
           if |q.plan.root.remoteSources| == 0 then NoSuchElement else IllegalArgument), []))
    // rows are returned exactly on the happy path, after collect, task, commit and completion, in that order
    ensures run.outcome.Rows? <==> HappyPath(q, env)
    ensures run.outcome.Rows? ==>
      && run.trace == [Collect, RunTask(RootRequest(q, env.collect.value)),
                       AsyncCommit(BoundTransaction(q, env)), Completed(None)]
                      + Deserializations(|ResultPages(q, env)|)
      && |run.outcome.rows| == TotalPositions(ResultPages(q, env))
    // the commit succeeded but a page could not be converted: thrown after the completion event, with no rollback
    ensures !HappyPath(q, env) && SingleRemoteSource(q) && TryBlock(q, env).outcome.Committed? ==>
      && run.outcome.Thrown? && (run.outcome.raised.primary.kind == IndexOutOfBounds || run.outcome.raised.primary.kind == NullPointer)
      && |run.trace| >= 4 && run.trace[..4] == TryBlock(q, env).trace + [Completed(None)]
      && forall a <- run.trace :: !a.AsyncAbort?
  {
    var sources := q.plan.root.remoteSources;
    if |sources| != 1 then
      var f := Failure(Internal(0), if |sources| == 0 then NoSuchElement else IllegalArgument);
      Run([Throw(f.id)], Thrown(Raised(f, [])))
    else
      var t := TryBlock(q, env);
      var rest := AfterTry(q, env, t);
      if t.outcome.Committed? then
        AfterCommit(q, env);
        Run(t.trace + rest.trace, rest.outcome)
      else
        Run(t.trace + rest.trace, rest.outcome)
  }

  /** The part of execute after a successful try block: Finish, run after the try block's three actions. */
  lemma AfterCommit<B, V>(q: QueryExecution, env: Env<B, V>)
    requires SingleRemoteSource(q) && TryBlock(q, env).outcome.Committed?
    ensures var t := TryBlock(q, env);
            var rest := AfterTry(q, env, t);
      && (rest.outcome.Rows? <==> HappyPath(q, env))
      && (rest.outcome.Rows? ==>
           && t.trace + rest.trace == [Collect, RunTask(RootRequest(q, env.collect.value)),
                                       AsyncCommit(BoundTransaction(q, env)), Completed(None)]
                                      + Deserializations(|ResultPages(q, env)|)
           && |rest.outcome.rows| == TotalPositions(ResultPages(q, env)))
      && (rest.outcome.Thrown? ==>
           && (rest.outcome.raised.primary.kind == IndexOutOfBounds || rest.outcome.raised.primary.kind == NullPointer)
           && |t.trace + rest.trace| >= 4 && (t.trace + rest.trace)[..4] == t.trace + [Completed(None)]
           && forall a <- t.trace + rest.trace :: !a.AsyncAbort?)
  {
    var t := TryBlock(q, env);
    var finish := Finish(q, env, t.outcome.output, t.created);
    assert AfterTry(q, env, t) == finish;
    assert Decoded(env, t.outcome.output) == ResultPages(q, env);
    assert (t.trace + finish.trace)[..4] == t.trace + [Completed(None)];
    assert forall a <- t.trace + finish.trace :: a in t.trace || a in finish.trace;
  }
}

=== FILE: execution_lemmas.dfy ===
/** Properties of whole runs of `execute`, and of `create` followed by `execute`. */
module ExecutionLemmas {
  import opened Wrappers
  import opened Failures
  import opened Pages
  import opened Transactions
  import opened Sessions
  import opened Plans
  import opened Creation
  import opened Execution

  lemma {:induction false} CountAppend(a: seq<Action>, b: seq<Action>, p: Action -> bool)
    ensures Count(a + b, p) == Count(a, p) + Count(b, p)
    decreases |a|
  {
    if |a| == 0 {
      assert a + b == b;
    } else {
      assert (a + b)[1..] == a[1..] + b;
      CountAppend(a[1..], b, p);
    }
  }

  lemma {:induction false} CountAbsent(t: seq<Action>, p: Action -> bool)
    requires forall a <- t :: !p(a)
    ensures Count(t, p) == 0
    decreases |t|
  {
    if |t| > 0 {
      assert forall a <- t[1..] :: a in t;
      CountAbsent(t[1..], p);
    }
  }

  lemma CountSingle(a: Action, p: Action -> bool)
    ensures Count([a], p) == if p(a) then 1 else 0
  {
    assert [a][1..] == [];
  }

  /** At most one action, followed by actions none of which satisfies `p`. */
  lemma CountAtMostOneThenAbsent(first: seq<Action>, rest: seq<Action>, p: Action -> bool)
    requires |first| <= 1
    requires forall a <- rest :: !p(a)
    ensures Count(first + rest, p) == if first != [] && p(first[0]) then 1 else 0
  {
    CountAppend(first, rest, p);
    CountAbsent(rest, p);
    if first != [] {
      assert first == [first[0]];
      CountSingle(first[0], p);
    }
  }

  /** Actions none of which satisfies `p`, then others: only the others count. */
  lemma CountAfterAbsent(first: seq<Action>, rest: seq<Action>, p: Action -> bool)
    requires forall a <- first :: !p(a)
    ensures Count(first + rest, p) == Count(rest, p)
  {
    CountAppend(first, rest, p);
    CountAbsent(first, p);
  }

  /** execute, once the remote source check passes: the try block's actions, then whatever follows them. */
  lemma ExecuteSplit<B, V>(q: QueryExecution, env: Env<B, V>)
    requires SingleRemoteSource(q)
    ensures var t := TryBlock(q, env);
      Execute(q, env) == Run(t.trace + AfterTry(q, env, t).trace, AfterTry(q, env, t).outcome)
  {
  }

  /**
   * The catch block of execute for a RuntimeException f issues asyncAbort once
   * when the transaction passes the checks of getTransactionInfo on rollback's
   * lookup, and not at all otherwise; it never issues asyncCommit.
   */
  lemma CatchBlockAborts<B, V>(q: QueryExecution, env: Env<B, V>, f: Failure, created: nat)
    requires f.IsRuntime()
    ensures Count(HandleFailure(q, env, f, created).trace, IsAbort) == if TransactionUsable(q.session, env.transactionsAtRollback) then 1 else 0
    ensures Count(HandleFailure(q, env, f, created).trace, IsCommit) == 0
  {
    var rb := Rollback(q, env, created);
    var after := AfterRollback<V>(f, rb.failure);
    CountAtMostOneThenAbsent(rb.actions, after.trace, IsAbort);
    CountAtMostOneThenAbsent(rb.actions, after.trace, IsCommit);
  }

  /**
   * The catch block of execute for a RuntimeException f: the rollback's
   * RuntimeException is attached to f when it is a different instance (the
   * rollback's own state error always is), and f is what leaves, unless the
   * rollback throws an Error, which is not caught and replaces f.
   */
  lemma CatchBlockRaises<B, V>(q: QueryExecution, env: Env<B, V>, f: Failure, created: nat)
    requires f.IsRuntime()
    requires f.id.Internal? ==> f.id.ordinal < created
    ensures var raised := HandleFailure(q, env, f, created).outcome.raised;
      if TransactionUsable(q.session, env.transactionsAtRollback) then
        match env.asyncAbort
        case None => raised == Raised(f, [])
        case Some(fault) =>
          if fault.fatal then raised == Raised(fault.ToFailure(), [])
          else if External(fault.instance) == f.id then raised == Raised(f, [])
          else raised == Raised(f, [fault.ToFailure()])
      else
        && raised.primary == f
        && |raised.suppressed| == 1
        && raised.suppressed[0].id != f.id
        && raised.suppressed[0].kind == IllegalState(StateMessage(LookupTransaction(q.session, env.transactionsAtRollback)))
  {
  }

  /**
   * A RuntimeException raised by collect, by the root task or by commit leads
   * to exactly one rollback attempt: asyncAbort is issued once when the
   * transaction passes the checks of getTransactionInfo on rollback's lookup,
   * and not at all otherwise.
   */
  lemma RuntimeFailureRollsBackOnce<B, V>(q: QueryExecution, env: Env<B, V>)
    requires SingleRemoteSource(q)
    requires TryBlock(q, env).outcome.Caught? && TryBlock(q, env).outcome.failure.IsRuntime()
    ensures Count(Execute(q, env).trace, IsAbort) == if TransactionUsable(q.session, env.transactionsAtRollback) then 1 else 0
  {
    var t := TryBlock(q, env);
    var handled := HandleFailure(q, env, t.outcome.failure, t.created);
    ExecuteSplit(q, env);
    assert AfterTry(q, env, t) == handled;
    CatchBlockAborts(q, env, t.outcome.failure, t.created);
    CountAfterAbsent(t.trace, handled.trace, IsAbort);
  }

  /**
   * After a RuntimeException in the try block no page is deserialized and the
   * completion event never reports success.
   */
  lemma RuntimeFailureReturnsNoRows<B, V>(q: QueryExecution, env: Env<B, V>)
    requires SingleRemoteSource(q)
    requires TryBlock(q, env).outcome.Caught? && TryBlock(q, env).outcome.failure.IsRuntime()
    ensures Execute(q, env).outcome.Thrown?
    ensures forall a <- Execute(q, env).trace :: !a.Deserialize? && a != Completed(None)
  {
  }

  /**
   * Unless the rollback throws an Error, the very same exception object the
   * try block raised is reported to the completion event and rethrown, with
   * the rollback's failure attached as CatchBlockRaises describes.
   */
  lemma RuntimeFailureRethrown<B, V>(q: QueryExecution, env: Env<B, V>)
    requires SingleRemoteSource(q)
    requires TryBlock(q, env).outcome.Caught? && TryBlock(q, env).outcome.failure.IsRuntime()
    requires !(TransactionUsable(q.session, env.transactionsAtRollback) && env.asyncAbort.Some? && env.asyncAbort.value.fatal)
    ensures Execute(q, env).outcome == HandleFailure(q, env, TryBlock(q, env).outcome.failure, TryBlock(q, env).created).outcome
    ensures Execute(q, env).outcome.Thrown? && Execute(q, env).outcome.raised.primary == TryBlock(q, env).outcome.failure
    ensures |Execute(q, env).trace| >= 2
    ensures Execute(q, env).trace[|Execute(q, env).trace| - 2] == Completed(Some(TryBlock(q, env).outcome.failure.id))
    ensures Execute(q, env).trace[|Execute(q, env).trace| - 1] == Throw(TryBlock(q, env).outcome.failure.id)
  {
  }

  /** An Error raised inside the try block is not caught: no rollback, no completion event, the Error propagates as is. */
  lemma ErrorNotCaught<B, V>(q: QueryExecution, env: Env<B, V>)
    requires SingleRemoteSource(q)
    requires TryBlock(q, env).outcome.Caught? && !TryBlock(q, env).outcome.failure.IsRuntime()
    ensures Execute(q, env).outcome == Thrown(Raised(TryBlock(q, env).outcome.failure, []))
    ensures Execute(q, env).trace == TryBlock(q, env).trace + [Throw(TryBlock(q, env).outcome.failure.id)]
  {
  }

  /** The try block issues asyncCommit at most once, at its end, and never asyncAbort. */
  lemma {:induction false} TryBlockEndsOnce<B, V>(q: QueryExecution, env: Env<B, V>)
    requires SingleRemoteSource(q)
    ensures Count(TryBlock(q, env).trace, IsCommit) <= 1
    ensures Count(TryBlock(q, env).trace, IsAbort) == 0
  {
    var t := TryBlock(q, env).trace;
    CountAbsent(t, IsAbort);
    var init := t[..|t| - 1];
    assert t == init + [t[|t| - 1]];
    CountAppend(init, [t[|t| - 1]], IsCommit);
    assert forall a <- init :: a.Collect? || a.RunTask?;
    CountAbsent(init, IsCommit);
    CountSingle(t[|t| - 1], IsCommit);
  }

  /**
   * What execute does after the try block issues no asyncCommit, and at most
   * one asyncAbort; when it issues one, the run ends in an exception.
   */
  lemma AfterTryEndsOnce<B, V>(q: QueryExecution, env: Env<B, V>, t: TryRun)
    ensures Count(AfterTry(q, env, t).trace, IsCommit) == 0
    ensures Count(AfterTry(q, env, t).trace, IsAbort) <= 1
    ensures Count(AfterTry(q, env, t).trace, IsAbort) == 1 ==> AfterTry(q, env, t).outcome.Thrown?
  {
    match t.outcome
    case Committed(output) =>
      var m := Finish(q, env, output, t.created);
      CountAbsent(m.trace, IsCommit);
      CountAbsent(m.trace, IsAbort);
    case Caught(f) =>
      if !f.IsRuntime() {
        CountSingle(Throw(f.id), IsCommit);
        CountSingle(Throw(f.id), IsAbort);
      } else {
        CatchBlockAborts(q, env, f, t.created);
      }
  }

  /**
   * Whatever happens, asyncCommit is issued at most once and asyncAbort at
   * most once, and a run that issued asyncAbort does not return rows.
   */
  lemma TransactionEndedAtMostOnce<B, V>(q: QueryExecution, env: Env<B, V>)
    ensures Count(Execute(q, env).trace, IsCommit) <= 1
    ensures Count(Execute(q, env).trace, IsAbort) <= 1
    ensures Count(Execute(q, env).trace, IsAbort) == 1 ==> Execute(q, env).outcome.Thrown?
  {
    if !SingleRemoteSource(q) {
      CountSingle(Throw(Internal(0)), IsCommit);
      CountSingle(Throw(Internal(0)), IsAbort);
    } else {
      var t := TryBlock(q, env);
      ExecuteSplit(q, env);
      TryBlockEndsOnce(q, env);
      AfterTryEndsOnce(q, env, t);
      CountAppend(t.trace, AfterTry(q, env, t).trace, IsCommit);
      CountAppend(t.trace, AfterTry(q, env, t).trace, IsAbort);
    }
  }

  /**
   * The rows of a successful run are the rows of the result pages, page after
   * page in result-list order: the rows of page i are getPageValues of page i
   * under the output types, starting after the rows of the pages before it.
   */
  lemma SuccessRows<B, V>(q: QueryExecution, env: Env<B, V>)
    requires Execute(q, env).outcome.Rows?
    ensures HappyPath(q, env)
    ensures var rows := Execute(q, env).outcome.rows;
            var pages := ResultPages(q, env);
      && |rows| == TotalPositions(pages)
      && forall i :: 0 <= i < |pages| ==>
           && RowStart(pages, i) + pages[i].positionCount <= |rows|
           && rows[RowStart(pages, i)..RowStart(pages, i) + pages[i].positionCount]
              == PageValues(pages[i], OutputTypes(q), env.value).value
  {
    var pages := ResultPages(q, env);
    var t := TryBlock(q, env);
    ExecuteSplit(q, env);
    assert t.outcome.Committed? && t.outcome.output == env.runTask(RootRequest(q, env.collect.value)).value;
    var finish := Finish(q, env, t.outcome.output, t.created);
    assert Execute(q, env).outcome == finish.outcome;
    assert Decoded(env, t.outcome.output) == pages;
    MaterializeLayout(pages, OutputTypes(q), env.value);
    assert finish.outcome.rows == Materialize(pages, OutputTypes(q), env.value).rows;
  }

  /**
   * A result with a NULL cell is never returned: once the commit has
   * succeeded, a null value at a typed cell of any result page makes execute
   * throw after the success event, with nothing aborted.
   */
  lemma NullCellNotReturned<B, V>(q: QueryExecution, env: Env<B, V>, i: nat, p: nat, c: nat)
    requires SingleRemoteSource(q) && TryBlock(q, env).outcome.Committed?
    requires i < |ResultPages(q, env)|
    requires p < ResultPages(q, env)[i].positionCount && c < ResultPages(q, env)[i].ChannelCount() && c < |OutputTypes(q)|
    requires env.value(OutputTypes(q)[c], ResultPages(q, env)[i].blocks[c], p).None?
    ensures Execute(q, env).outcome.Thrown?
    ensures |Execute(q, env).trace| >= 4 && Execute(q, env).trace[..4] == TryBlock(q, env).trace + [Completed(None)]
    ensures forall a <- Execute(q, env).trace :: !a.AsyncAbort?
  {
    var pages := ResultPages(q, env);
    assert !CellOk(pages[i], OutputTypes(q), env.value, p, c);
    assert !RowOk(pages[i], OutputTypes(q), env.value, p);
    assert !Convertible(pages[i], OutputTypes(q), env.value);
  }

  /**
   * When getTransactionInfo's checks fail on commit's lookup after collect and
   * the root task succeeded, commit's state error is thrown. When the checks
   * fail again on rollback's lookup, it carries rollback's state error (a
   * second, different object) as its only suppressed exception.
   */
  lemma StateErrorCarriesRollbackError<B, V>(q: QueryExecution, env: Env<B, V>)
    requires !TransactionUsable(q.session, env.transactions)
    requires SingleRemoteSource(q) && env.collect.Done? && env.runTask(RootRequest(q, env.collect.value)).Done?
    ensures !TransactionUsable(q.session, env.transactionsAtRollback) ==>
      Execute(q, env).outcome ==
        Thrown(Raised(Failure(Internal(0), IllegalState(StateMessage(LookupTransaction(q.session, env.transactions)))),
                      [Failure(Internal(1), IllegalState(StateMessage(LookupTransaction(q.session, env.transactionsAtRollback))))]))
  {
    ExecuteSplit(q, env);
  }

  /**
   * The commit check passes, the commit future fails with a RuntimeException,
   * and by the time rollback looks again the transaction no longer passes: the
   * commit failure is thrown with rollback's state error suppressed, and no
   * asyncAbort is issued.
   */
  lemma CommitFailureThenStateError<B, V>(q: QueryExecution, env: Env<B, V>)
    requires SingleRemoteSource(q) && env.collect.Done? && env.runTask(RootRequest(q, env.collect.value)).Done?
    requires TransactionUsable(q.session, env.transactions)
    requires env.asyncCommit.Some? && !env.asyncCommit.value.fatal
    requires !TransactionUsable(q.session, env.transactionsAtRollback)
    ensures var e := env.asyncCommit.value.ToFailure();
      var stateError := Failure(Internal(0), IllegalState(StateMessage(LookupTransaction(q.session, env.transactionsAtRollback))));
      && Execute(q, env).outcome == Thrown(Raised(e, [stateError]))
      && Execute(q, env).trace ==
           [Collect, RunTask(RootRequest(q, env.collect.value)), AsyncCommit(BoundTransaction(q, env)),
            AddSuppressed(e.id, stateError.id), Completed(Some(e.id)), Throw(e.id)]
  {
    ExecuteSplit(q, env);
    var t := TryBlock(q, env);
    assert t.created == 0;
  }

  /** The try block issues no asyncAbort, and asyncCommit only for the bound transaction, once the checks pass. */
  lemma TryBlockAsyncCalls<B, V>(q: QueryExecution, env: Env<B, V>)
    requires SingleRemoteSource(q)
    ensures forall a <- TryBlock(q, env).trace ::
      && !a.AsyncAbort?
      && (a.AsyncCommit? ==> TransactionUsable(q.session, env.transactions) && a.transactionId == BoundTransaction(q, env))
  {
  }

  /** After the try block, no asyncCommit is issued, and asyncAbort only for the transaction rollback's own lookup found usable. */
  lemma AfterTryAsyncCalls<B, V>(q: QueryExecution, env: Env<B, V>, t: TryRun)
    ensures forall a <- AfterTry(q, env, t).trace ::
      && !a.AsyncCommit?
      && (a.AsyncAbort? ==> TransactionUsable(q.session, env.transactionsAtRollback) && a.transactionId == AbortedTransaction(q, env))
  {
  }

  /**
   * Every asyncCommit a run issues names the transaction commit's lookup
   * resolved to, after it passed the checks, and every asyncAbort the one
   * rollback's lookup resolved to, after it passed them.
   */
  lemma AsyncCallsUseBoundTransaction<B, V>(q: QueryExecution, env: Env<B, V>)
    ensures forall a <- Execute(q, env).trace :: a.AsyncCommit? ==>
      TransactionUsable(q.session, env.transactions) && a.transactionId == BoundTransaction(q, env)
    ensures forall a <- Execute(q, env).trace :: a.AsyncAbort? ==>
      TransactionUsable(q.session, env.transactionsAtRollback) && a.transactionId == AbortedTransaction(q, env)
  {
    if SingleRemoteSource(q) {
      var t := TryBlock(q, env);
      var rest := AfterTry(q, env, t);
      ExecuteSplit(q, env);
      TryBlockAsyncCalls(q, env);
      AfterTryAsyncCalls(q, env, t);
      assert forall a <- t.trace + rest.trace :: a in t.trace || a in rest.trace;
    }
  }

  /** A failed check skips the call it guards: no asyncCommit when commit's lookup fails, no asyncAbort when rollback's does. */
  lemma StateErrorSkipsAsyncCalls<B, V>(q: QueryExecution, env: Env<B, V>)
    ensures !TransactionUsable(q.session, env.transactions) ==> forall a <- Execute(q, env).trace :: !a.AsyncCommit?
    ensures !TransactionUsable(q.session, env.transactionsAtRollback) ==> forall a <- Execute(q, env).trace :: !a.AsyncAbort?
  {
    AsyncCallsUseBoundTransaction(q, env);
  }

  /**
   * A handle made by create commits or aborts only the transaction create
   * began, whatever the manager reports at each lookup, provided it files
   * every transaction's information under that transaction's id.
   */
  lemma CreatedQueryReachesTransaction<B, V>(queryId: QueryId, context: SessionContext, tm: TxManager,
                                            planner: Session -> Attempt<PlanAndUpdateType>, env: Env<B, V>)
    requires tm.Valid()
    requires Create(queryId, context, tm, planner).handle.Done?
    requires KeyedById(env.transactions) && KeyedById(env.transactionsAtRollback)
    ensures var c := Create(queryId, context, tm, planner);
      forall a <- Execute(c.handle.value, env).trace :: (a.AsyncCommit? || a.AsyncAbort?) ==> a.transactionId == c.transactionId
  {
    AsyncCallsUseBoundTransaction(Create(queryId, context, tm, planner).handle.value, env);
  }

  /**
   * A handle made by create, whose commit lookup sees the transaction manager
   * create left behind, never throws a state error. Rollback's second lookup
   * is not constrained here, so a state error from it can still be attached
   * as suppressed; CreatedQueryNoStateErrorAnywhere rules that out too.
   */
  lemma CreatedQueryNoStateError<B, V>(queryId: QueryId, context: SessionContext, tm: TxManager,
                                      planner: Session -> Attempt<PlanAndUpdateType>, env: Env<B, V>)
    requires tm.Valid()
    requires Create(queryId, context, tm, planner).handle.Done?
    requires env.transactions == Create(queryId, context, tm, planner).manager.transactions
    ensures var run := Execute(Create(queryId, context, tm, planner).handle.value, env);
      run.outcome.Thrown? ==> !run.outcome.raised.primary.kind.IllegalState?
  {
    var q := Create(queryId, context, tm, planner).handle.value;
    CreatedTransactionUsable(queryId, context, tm, planner);
    if SingleRemoteSource(q) {
      ExecuteSplit(q, env);
    }
  }

  /**
   * When both lookups see the transaction manager create left behind, no
   * state error appears anywhere in what the run throws: neither as the
   * exception that leaves nor among its suppressed exceptions.
   */
  lemma CreatedQueryNoStateErrorAnywhere<B, V>(queryId: QueryId, context: SessionContext, tm: TxManager,
                                              planner: Session -> Attempt<PlanAndUpdateType>, env: Env<B, V>)
    requires tm.Valid()
    requires Create(queryId, context, tm, planner).handle.Done?
    requires env.transactions == Create(queryId, context, tm, planner).manager.transactions
    requires env.transactionsAtRollback == Create(queryId, context, tm, planner).manager.transactions
    ensures var run := Execute(Create(queryId, context, tm, planner).handle.value, env);
      run.outcome.Thrown? ==>
        && !run.outcome.raised.primary.kind.IllegalState?
        && forall s <- run.outcome.raised.suppressed :: !s.kind.IllegalState?
  {
    var q := Create(queryId, context, tm, planner).handle.value;
    CreatedTransactionUsable(queryId, context, tm, planner);
    if SingleRemoteSource(q) {
      var t := TryBlock(q, env);
      ExecuteSplit(q, env);
      if t.outcome.Caught? && t.outcome.failure.IsRuntime() {
        CatchBlockRaises(q, env, t.outcome.failure, t.created);
      }
    }
  }

  /**
   * A handle made by create returns rows whenever collect, the root task, the
   * commit future and the conversion of the pages succeed.
   */
  lemma CreatedQuerySucceeds<B, V>(queryId: QueryId, context: SessionContext, tm: TxManager,
                                  planner: Session -> Attempt<PlanAndUpdateType>, env: Env<B, V>)
    requires tm.Valid()
    requires Create(queryId, context, tm, planner).handle.Done?
    requires env.transactions == Create(queryId, context, tm, planner).manager.transactions
    requires var q := Create(queryId, context, tm, planner).handle.value;
      && SingleRemoteSource(q)
      && env.collect.Done?
      && env.runTask(RootRequest(q, env.collect.value)).Done?
      && env.asyncCommit.None?
      && AllConvertible(ResultPages(q, env), OutputTypes(q), env.value)
    ensures Execute(Create(queryId, context, tm, planner).handle.value, env).outcome.Rows?
  {
    CreatedTransactionUsable(queryId, context, tm, planner);
  }
}

=== FILE: failures.dfy ===
/**
 * Thrown objects, with the identity the JVM gives them.
 *
 * The catch block of the query execution compares two exceptions by
 * reference (`executionFailure != rollbackFailure`), so every failure here
 * carries an identity. Exceptions thrown by collaborators (Spark, the task
 * executor, the transaction manager) are numbered by the environment, which
 * may hand out the same instance twice; exceptions the coordinator creates
 * itself are numbered in creation order and are therefore always new.
 */
module Failures {

  datatype ExcId =
    | External(instance: nat)   // thrown by a collaborator
    | Internal(ordinal: nat)    // created by the coordinator's own code

  datatype Kind =
    | IllegalState(message: string)   // Preconditions.checkState
    | NoSuchElement                   // getOnlyElement on an empty list
    | IllegalArgument                 // getOnlyElement on a list of two or more
    | IndexOutOfBounds                // List.get past the end
    | NullPointer                     // ImmutableList.Builder.add of null
    | Runtime                         // any RuntimeException of a collaborator
    | Fatal                           // any other Throwable of a collaborator: an Error, or a checked exception

  datatype Failure = Failure(id: ExcId, kind: Kind) {

    /** Only RuntimeException subclasses are caught by the execution's catch blocks. */
    predicate IsRuntime() {
      !kind.Fatal?
    }
  }

  /**
   * What a collaborator throws: an instance number, and whether it is NOT a
   * RuntimeException (an Error, or a checked exception such as Scala code can
   * throw undeclared), which the catch blocks of the execution let through.
   * Waiting on a future wraps a checked cause in a new RuntimeException, so
   * there `fatal` means an Error.
   */
  datatype Fault = Fault(instance: nat, fatal: bool) {

    function ToFailure(): (f: Failure)
      ensures f.id == External(instance)
      ensures f.IsRuntime() <==> !fatal
    {
      Failure(External(instance), if fatal then Fatal else Runtime)
    }
  }

  /** The outcome of a collaborator call that either returns or throws. */
  datatype Attempt<+X> = Done(value: X) | Failed(fault: Fault)

  /** The outcome of the coordinator's own checks. */
  datatype Result<+X> = Ok(value: X) | Err(failure: Failure)

  /** An exception as it leaves `execute`: the thrown object and the exceptions added to it as suppressed. */
  datatype Raised = Raised(primary: Failure, suppressed: seq<Failure>)

  /**
   * Throwable.addSuppressed. The JDK refuses self-suppression with an
   * IllegalArgumentException, so the caller must pass a different instance.
   */
  function WithSuppressed(r: Raised, s: Failure): (r': Raised)
    requires s.id != r.primary.id
    ensures r'.primary == r.primary
    ensures |r'.suppressed| == |r.suppressed| + 1 && r'.suppressed[|r.suppressed|] == s
    ensures r'.suppressed[..|r.suppressed|] == r.suppressed
  {
    Raised(r.primary, r.suppressed + [s])
  }
}

=== FILE: pages.dfy ===
/**
 * Result pages and their conversion to rows (getPageValues and the
 * flattening of all result pages in `execute`).
 *
 * A page is a position count plus one block per channel. The type system is
 * not modelled: `value(type, block, position)` stands for
 * Type.getObjectValue and is left uninterpreted, with None for a null result.
 */
module Pages {
  import opened Wrappers

  /** A column type, known only by its signature. */
  datatype ColumnType = ColumnType(signature: string)

  datatype Page<B> = Page(positionCount: nat, blocks: seq<B>) {

    function ChannelCount(): nat {
      |blocks|
    }
  }

  /** Why getPageValues throws at a cell. */
  datatype ConversionError =
    | MissingType   // types.get(channel) past the end of the type list: IndexOutOfBoundsException
    | NullCell      // getObjectValue returned null, which ImmutableList.Builder.add rejects: NullPointerException

  /** The cell at which getPageValues threw, and why. */
  datatype CellFailure = CellFailure(error: ConversionError, position: nat, channel: nat)

  /** The outcome of converting cells: the values, or the cell that threw. */
  datatype Conversion<X> = Converted(value: X) | Threw(failure: CellFailure)

  /**
   * What the body of the inner loop does at one cell: look the channel's type
   * up, then add the value getObjectValue returns. `value` stands for
   * getObjectValue, with None for Java's null.
   */
  function CellError<B, V>(page: Page<B>, types: seq<ColumnType>, value: (ColumnType, B, nat) -> Option<V>,
                           position: nat, channel: nat): Option<ConversionError>
    requires channel < page.ChannelCount()
  {
    if channel >= |types| then Some(MissingType)
    else if value(types[channel], page.blocks[channel], position).None? then Some(NullCell)
    else None
  }

  predicate CellOk<B, V>(page: Page<B>, types: seq<ColumnType>, value: (ColumnType, B, nat) -> Option<V>,
                         position: nat, channel: nat)
    requires channel < page.ChannelCount()
  {
    CellError(page, types, value, position, channel).None?
  }

  /** The value getPageValues puts in a cell that does not throw. */
  function Cell<B, V>(page: Page<B>, types: seq<ColumnType>, value: (ColumnType, B, nat) -> Option<V>,
                      position: nat, channel: nat): V
    requires channel < page.ChannelCount() && CellOk(page, types, value, position, channel)
  {
    value(types[channel], page.blocks[channel], position).value
  }

  /** Every cell of the row at `position` converts. */
  predicate RowOk<B, V>(page: Page<B>, types: seq<ColumnType>, value: (ColumnType, B, nat) -> Option<V>, position: nat) {
    forall c :: 0 <= c < page.ChannelCount() ==> CellOk(page, types, value, position, c)
  }

  /** getPageValues runs to completion: every cell of every row converts. */
  predicate Convertible<B, V>(page: Page<B>, types: seq<ColumnType>, value: (ColumnType, B, nat) -> Option<V>) {
    forall p :: 0 <= p < page.positionCount ==> RowOk(page, types, value, p)
  }

  predicate AllConvertible<B, V>(pages: seq<Page<B>>, types: seq<ColumnType>, value: (ColumnType, B, nat) -> Option<V>) {
    forall i :: 0 <= i < |pages| ==> Convertible(pages[i], types, value)
  }

  /**
   * Every channel has a type, or there is no position at which the inner
   * loop would look one up.
   */
  predicate Readable<B>(page: Page<B>, types: seq<ColumnType>) {
    page.positionCount == 0 || page.ChannelCount() <= |types|
  }

  /** getObjectValue returns a non-null value at every cell whose channel has a type. */
  predicate NullFree<B, V>(page: Page<B>, types: seq<ColumnType>, value: (ColumnType, B, nat) -> Option<V>) {
    forall p, c :: 0 <= p < page.positionCount && 0 <= c < page.ChannelCount() && c < |types| ==>
      value(types[c], page.blocks[c], p).Some?
  }

  /**
   * f is the first cell, in position-then-channel order, at which the loops
   * of getPageValues throw, and f.error is why.
   */
  predicate FirstFailure<B, V>(page: Page<B>, types: seq<ColumnType>, value: (ColumnType, B, nat) -> Option<V>, f: CellFailure) {
    && f.position < page.positionCount
    && f.channel < page.ChannelCount()
    && CellError(page, types, value, f.position, f.channel) == Some(f.error)
    && (forall p :: 0 <= p < f.position ==> RowOk(page, types, value, p))
    && (forall c :: 0 <= c < f.channel ==> CellOk(page, types, value, f.position, c))
  }

  /** Reference definition of the row at `position`: one value per channel, in channel order. */
  function RowOf<B, V>(page: Page<B>, types: seq<ColumnType>, value: (ColumnType, B, nat) -> Option<V>, position: nat): seq<V>
    requires RowOk(page, types, value, position)
  {
    seq(page.ChannelCount(), c requires 0 <= c < page.ChannelCount() && CellOk(page, types, value, position, c) =>
      Cell(page, types, value, position, c))
  }

  /** The inner loop of getPageValues: the cells of one row for channels 0 .. channels-1, or the first that throws. */
  function Columns<B, V>(page: Page<B>, types: seq<ColumnType>, value: (ColumnType, B, nat) -> Option<V>,
                         position: nat, channels: nat): (r: Conversion<seq<V>>)
    requires channels <= page.ChannelCount()
    ensures r.Converted? <==> forall c :: 0 <= c < channels ==> CellOk(page, types, value, position, c)
    ensures r.Converted? ==> |r.value| == channels
    ensures r.Converted? ==> forall c :: 0 <= c < channels ==>
      CellOk(page, types, value, position, c) && r.value[c] == Cell(page, types, value, position, c)
    ensures r.Threw? ==>
      && r.failure.position == position
      && r.failure.channel < channels
      && CellError(page, types, value, position, r.failure.channel) == Some(r.failure.error)
      && forall c :: 0 <= c < r.failure.channel ==> CellOk(page, types, value, position, c)
  {
    if channels == 0 then Converted([])
    else
      match Columns(page, types, value, position, channels - 1)
      case Threw(f) => Threw(f)
      case Converted(cells) =>
        match CellError(page, types, value, position, channels - 1)
        case Some(e) =>
          assert !CellOk(page, types, value, position, channels - 1);
          Threw(CellFailure(e, position, channels - 1))
        case None => Converted(cells + [Cell(page, types, value, position, channels - 1)])
  }

  /** The outer loop of getPageValues: the rows for positions 0 .. positions-1, or the first cell that throws. */
  function RowsUpTo<B, V>(page: Page<B>, types: seq<ColumnType>, value: (ColumnType, B, nat) -> Option<V>,
                          positions: nat): (r: Conversion<seq<seq<V>>>)
    requires positions <= page.positionCount
    ensures r.Converted? <==> forall p :: 0 <= p < positions ==> RowOk(page, types, value, p)
    ensures r.Converted? ==> |r.value| == positions
    ensures r.Converted? ==> forall p :: 0 <= p < positions ==>
      RowOk(page, types, value, p) && r.value[p] == RowOf(page, types, value, p)
    ensures r.Threw? ==> r.failure.position < positions && FirstFailure(page, types, value, r.failure)
  {
    if positions == 0 then Converted([])
    else
      match RowsUpTo(page, types, value, positions - 1)
      case Threw(f) => Threw(f)
      case Converted(rows) =>
        match Columns(page, types, value, positions - 1, page.ChannelCount())
        case Threw(f) =>
          assert !CellOk(page, types, value, positions - 1, f.channel);
          assert !RowOk(page, types, value, positions - 1);
          Threw(f)
        case Converted(row) =>
          assert row == RowOf(page, types, value, positions - 1);
          Converted(rows + [row])
  }

  /**
   * getPageValues: one row per position, in increasing position order, and in
   * each row one cell per channel, in channel order; or the exception of the
   * first cell, in that order, whose channel has no type or whose value is null.
   */
  function PageValues<B, V>(page: Page<B>, types: seq<ColumnType>, value: (ColumnType, B, nat) -> Option<V>): (r: Conversion<seq<seq<V>>>)
    ensures r.Converted? <==> Convertible(page, types, value)
    ensures r.Converted? ==> |r.value| == page.positionCount
    ensures r.Converted? ==> forall p :: 0 <= p < page.positionCount ==>
      && RowOk(page, types, value, p)
      && |r.value[p]| == page.ChannelCount()
      && forall c :: 0 <= c < page.ChannelCount() ==>
           CellOk(page, types, value, p, c) && r.value[p][c] == value(types[c], page.blocks[c], p).value
    ensures r.Threw? ==> FirstFailure(page, types, value, r.failure)
  {
    RowsUpTo(page, types, value, page.positionCount)
  }

  /** A page converts exactly when every channel has a type (or there are no positions) and no value is null. */
  lemma ConvertibleIff<B, V>(page: Page<B>, types: seq<ColumnType>, value: (ColumnType, B, nat) -> Option<V>)
    ensures Convertible(page, types, value) <==> Readable(page, types) && NullFree(page, types, value)
  {
    if Convertible(page, types, value) && page.positionCount > 0 && page.ChannelCount() > 0 {
      assert RowOk(page, types, value, 0);
      assert CellOk(page, types, value, 0, page.ChannelCount() - 1);
    }
    if Convertible(page, types, value) {
      forall p, c | 0 <= p < page.positionCount && 0 <= c < page.ChannelCount() && c < |types|
        ensures value(types[c], page.blocks[c], p).Some?
      {
        assert RowOk(page, types, value, p);
        assert CellOk(page, types, value, p, c);
      }
    }
    if Readable(page, types) && NullFree(page, types, value) {
      forall p | 0 <= p < page.positionCount ensures RowOk(page, types, value, p) {
        forall c | 0 <= c < page.ChannelCount() ensures CellOk(page, types, value, p, c) {
          assert value(types[c], page.blocks[c], p).Some?;
        }
      }
    }
  }

  /**
   * A page with positions and a channel without a type throws on its first
   * row: either the first missing type, or a null value before it.
   */
  lemma MissingTypeFailsFirstRow<B, V>(page: Page<B>, types: seq<ColumnType>, value: (ColumnType, B, nat) -> Option<V>)
    requires !Readable(page, types)
    ensures PageValues(page, types, value).Threw?
    ensures var f := PageValues(page, types, value).failure;
      && f.position == 0
      && (f.error == MissingType ==> f.channel == |types|)
      && (f.error == NullCell ==> f.channel < |types|)
  {
    assert !CellOk(page, types, value, 0, |types|);
    assert !RowOk(page, types, value, 0);
  }

  /** The number of rows a list of pages holds. */
  function TotalPositions<B>(pages: seq<Page<B>>): nat
  {
    if |pages| == 0 then 0 else pages[0].positionCount + TotalPositions(pages[1..])
  }

  /** The flattened rows of all pages, or the page whose conversion threw and the cell it threw at. */
  datatype Materialized<V> = AllRows(rows: seq<seq<V>>) | PageFailed(index: nat, failure: CellFailure)

  /**
   * The stream in `execute`: pages are converted one after the other, in list
   * order, and their rows are concatenated; the first page that cannot be
   * converted stops the stream with its exception.
   */
  function Materialize<B, V>(pages: seq<Page<B>>, types: seq<ColumnType>, value: (ColumnType, B, nat) -> Option<V>): (m: Materialized<V>)
    ensures m.AllRows? <==> AllConvertible(pages, types, value)
    ensures m.AllRows? ==> |m.rows| == TotalPositions(pages)
    ensures m.PageFailed? ==>
      && m.index < |pages|
      && PageValues(pages[m.index], types, value) == Threw(m.failure)
      && forall i :: 0 <= i < m.index ==> Convertible(pages[i], types, value)
  {
    if |pages| == 0 then AllRows([])
    else
      match PageValues(pages[0], types, value)
      case Threw(f) => PageFailed(0, f)
      case Converted(first) =>
        match Materialize(pages[1..], types, value)
        case AllRows(rest) =>
          assert forall i :: 1 <= i < |pages| ==> pages[i] == pages[1..][i - 1];
          AllRows(first + rest)
        case PageFailed(k, f) =>
          assert forall i :: 1 <= i < |pages| ==> pages[i] == pages[1..][i - 1];
          PageFailed(k + 1, f)
  }

  /** getPageValues' row at a position is the reference row. */
  lemma PageValuesRow<B, V>(page: Page<B>, types: seq<ColumnType>, value: (ColumnType, B, nat) -> Option<V>, p: nat)
    requires Convertible(page, types, value) && p < page.positionCount
    ensures PageValues(page, types, value).value[p] == RowOf(page, types, value, p)
  {
  }

  /** The flattening of a non-empty list of convertible pages: the rows of the first page, then the rest. */
  lemma MaterializeCons<B, V>(pages: seq<Page<B>>, types: seq<ColumnType>, value: (ColumnType, B, nat) -> Option<V>)
    requires |pages| > 0 && AllConvertible(pages, types, value)
    ensures AllConvertible(pages[1..], types, value)
    ensures Materialize(pages, types, value).rows ==
      PageValues(pages[0], types, value).value + Materialize(pages[1..], types, value).rows
  {
    assert Convertible(pages[0], types, value);
    forall j | 0 <= j < |pages[1..]| ensures Convertible(pages[1..][j], types, value) {
      assert pages[1..][j] == pages[j + 1];
    }
  }

  lemma TotalPositionsPrefix<B>(pages: seq<Page<B>>, i: nat)
    requires 0 < i <= |pages|
    ensures TotalPositions(pages[..i]) == pages[0].positionCount + TotalPositions(pages[1..][..i - 1])
  {
    assert pages[..i][1..] == pages[1..][..i - 1];
  }

  /** Where the rows of page i start in the flattened result: the number of rows of the pages before it. */
  function RowStart<B>(pages: seq<Page<B>>, i: nat): nat
    requires i <= |pages|
  {
    TotalPositions(pages[..i])
  }

  lemma SliceRightOfAppend<T>(x: seq<T>, y: seq<T>, lo: nat, hi: nat)
    requires |x| <= lo <= hi <= |x| + |y|
    ensures (x + y)[lo..hi] == y[lo - |x|..hi - |x|]
  {
  }

  /** The first page's rows open the flattened result. */
  lemma SliceFirst<B, V>(pages: seq<Page<B>>, types: seq<ColumnType>, value: (ColumnType, B, nat) -> Option<V>)
    requires AllConvertible(pages, types, value) && 0 < |pages|
    ensures RowStart(pages, 0) + pages[0].positionCount <= |Materialize(pages, types, value).rows|
    ensures Materialize(pages, types, value).rows[RowStart(pages, 0)..RowStart(pages, 0) + pages[0].positionCount]
      == PageValues(pages[0], types, value).value
  {
    MaterializeCons(pages, types, value);
    var first := PageValues(pages[0], types, value).value;
    var rest := Materialize(pages[1..], types, value).rows;
    assert pages[..0] == [];
    assert (first + rest)[0..|first|] == first;
  }

  /** Page i > 0 sits where the rest of the list puts page i - 1, shifted by the rows of the first page. */
  lemma SliceStep<B, V>(pages: seq<Page<B>>, types: seq<ColumnType>, value: (ColumnType, B, nat) -> Option<V>, i: nat)
    requires AllConvertible(pages, types, value) && 0 < i < |pages|
    requires AllConvertible(pages[1..], types, value)
    requires RowStart(pages[1..], i - 1) + pages[i].positionCount <= |Materialize(pages[1..], types, value).rows|
    requires Materialize(pages[1..], types, value).rows[RowStart(pages[1..], i - 1)..RowStart(pages[1..], i - 1) + pages[i].positionCount]
      == PageValues(pages[i], types, value).value
    ensures RowStart(pages, i) + pages[i].positionCount <= |Materialize(pages, types, value).rows|
    ensures Materialize(pages, types, value).rows[RowStart(pages, i)..RowStart(pages, i) + pages[i].positionCount]
      == PageValues(pages[i], types, value).value
  {
    MaterializeCons(pages, types, value);
    var first := PageValues(pages[0], types, value).value;
    var rest := Materialize(pages[1..], types, value).rows;
    TotalPositionsPrefix(pages, i);
    var k := RowStart(pages[1..], i - 1);
    SliceRightOfAppend(first, rest, |first| + k, |first| + k + pages[i].positionCount);
  }

  /** The rows of page i in the flattened result are exactly getPageValues of page i, by induction on i. */
  lemma {:induction false} MaterializeSlice<B, V>(pages: seq<Page<B>>, types: seq<ColumnType>, value: (ColumnType, B, nat) -> Option<V>,
                                                 i: nat)
    requires AllConvertible(pages, types, value) && i < |pages|
    ensures RowStart(pages, i) + pages[i].positionCount <= |Materialize(pages, types, value).rows|
    ensures Materialize(pages, types, value).rows[RowStart(pages, i)..RowStart(pages, i) + pages[i].positionCount]
      == PageValues(pages[i], types, value).value
    decreases i
  {
    if i == 0 {
      SliceFirst(pages, types, value);
    } else {
      MaterializeCons(pages, types, value);
      assert pages[1..][i - 1] == pages[i];
      MaterializeSlice(pages[1..], types, value, i - 1);
      SliceStep(pages, types, value, i);
    }
  }

  /** Row p of page i of the flattened result is the reference row. */
  lemma MaterializeAt<B, V>(pages: seq<Page<B>>, types: seq<ColumnType>, value: (ColumnType, B, nat) -> Option<V>, i: nat, p: nat)
    requires AllConvertible(pages, types, value) && i < |pages| && p < pages[i].positionCount
    ensures RowStart(pages, i) + p < |Materialize(pages, types, value).rows|
    ensures Materialize(pages, types, value).rows[RowStart(pages, i) + p] == RowOf(pages[i], types, value, p)
  {
    MaterializeSlice(pages, types, value, i);
    var rows := Materialize(pages, types, value).rows;
    var start := RowStart(pages, i);
    assert rows[start + p] == rows[start..start + pages[i].positionCount][p];
    PageValuesRow(pages[i], types, value, p);
  }

  /**
   * Layout of the flattened result: the rows of each page, as getPageValues
   * builds them, sit back to back in list order, starting at the number of
   * rows of the pages before; nothing is filtered or reordered.
   */
  lemma MaterializeLayout<B, V>(pages: seq<Page<B>>, types: seq<ColumnType>, value: (ColumnType, B, nat) -> Option<V>)
    requires AllConvertible(pages, types, value)
    ensures Materialize(pages, types, value).AllRows?
    ensures |Materialize(pages, types, value).rows| == TotalPositions(pages)
    ensures forall i :: 0 <= i < |pages| ==>
      && RowStart(pages, i) + pages[i].positionCount <= |Materialize(pages, types, value).rows|
      && Materialize(pages, types, value).rows[RowStart(pages, i)..RowStart(pages, i) + pages[i].positionCount]
         == PageValues(pages[i], types, value).value
  {
    forall i | 0 <= i < |pages|
      ensures RowStart(pages, i) + pages[i].positionCount <= |Materialize(pages, types, value).rows|
      ensures Materialize(pages, types, value).rows[RowStart(pages, i)..RowStart(pages, i) + pages[i].positionCount]
         == PageValues(pages[i], types, value).value
    {
      MaterializeSlice(pages, types, value, i);
    }
  }
}

=== FILE: plans.dfy ===
/** The planned query as the execution sees it, and the root task's descriptor. */
module Plans {
  import opened Wrappers
  import opened Pages
  import opened Sessions

  type PlanNodeId = string

  /** A plan fragment: its remote source nodes and its output types. */
  datatype Fragment = Fragment(id: nat, remoteSources: seq<PlanNodeId>, types: seq<ColumnType>)

  /** Metadata of the tables the query writes, passed through unchanged. */
  datatype TableWriteInfo = TableWriteInfo(writerTarget: Option<string>)

  /** PrestoSparkPlan: the fragmented plan (here its root fragment) and the table-write metadata. */
  datatype SparkPlan = SparkPlan(root: Fragment, tableWriteInfo: TableWriteInfo)

  /** What the query planner returns: the plan and the label of a detected DML statement. */
  datatype PlanAndUpdateType = PlanAndUpdateType(plan: SparkPlan, updateType: Option<string>)

  datatype Split = Split(planNodeId: PlanNodeId, description: string)

  /** PrestoSparkTaskDescriptor. */
  datatype TaskDescriptor = TaskDescriptor(
    session: SessionRepresentation,
    extraCredentials: map<string, string>,
    fragment: Fragment,
    splits: seq<Split>,
    tableWriteInfo: TableWriteInfo)
}

=== FILE: sessions.dfy ===
/** The query session and the lookup of the transaction bound to it. */
module Sessions {
  import opened Wrappers
  import opened Transactions

  type QueryId = nat

  datatype Identity = Identity(user: string, extraCredentials: map<string, string>)

  datatype Session = Session(
    queryId: QueryId,
    identity: Identity,
    properties: map<string, string>,
    transactionId: Option<TxId>)

  /** Session.toSessionRepresentation, reduced to the fields this model keeps. */
  datatype SessionRepresentation = SessionRepresentation(
    queryId: QueryId,
    user: string,
    properties: map<string, string>,
    transactionId: Option<TxId>)

  function ToRepresentation(s: Session): SessionRepresentation {
    SessionRepresentation(s.queryId, s.identity.user, s.properties, s.transactionId)
  }

  /**
   * session.getTransactionId().flatMap(transactionManager::getOptionalTransactionInfo):
   * present only when the session is bound to a transaction the manager still knows.
   */
  function LookupTransaction(s: Session, transactions: map<TxId, TxInfo>): (r: Option<TxInfo>)
    ensures r.Some? <==> s.transactionId.Some? && s.transactionId.value in transactions
    ensures r.Some? ==> r.value == transactions[s.transactionId.value]
  {
    match s.transactionId
    case None => None
    case Some(t) => if t in transactions then Some(transactions[t]) else None
  }

  /** The two checks of getTransactionInfo: the transaction is present and runs in auto-commit context. */
  predicate TransactionUsable(s: Session, transactions: map<TxId, TxInfo>) {
    LookupTransaction(s, transactions).Some? && LookupTransaction(s, transactions).value.autoCommit
  }
}

=== FILE: transactions.dfy ===
/**
 * The part of the transaction manager the coordinator relies on: beginning a
 * transaction and looking up its information. The manager's own code is not
 * part of this model; it is represented by the map of open transactions.
 */
module Transactions {

  type TxId = nat

  /** TransactionInfo as far as the coordinator reads it: the id and the auto-commit flag. */
  datatype TxInfo = TxInfo(transactionId: TxId, autoCommit: bool)

  datatype TxManager = TxManager(transactions: map<TxId, TxInfo>, nextId: TxId) {

    /** Every open transaction is keyed by its own id, and ids still to be handed out are fresh. */
    predicate Valid() {
      && KeyedById(transactions)
      && forall t :: t in transactions ==> t < nextId
    }
  }

  /** Every transaction's information is filed under its own id. */
  predicate KeyedById(transactions: map<TxId, TxInfo>) {
    forall t :: t in transactions ==> transactions[t].transactionId == t
  }

  /** TransactionManager.beginTransaction(autoCommit): a fresh id, registered as open. */
  function BeginTransaction(tm: TxManager, autoCommit: bool): (r: (TxId, TxManager))
    requires tm.Valid()
    ensures r.0 !in tm.transactions
    ensures r.1.Valid()
    ensures r.1.transactions == tm.transactions[r.0 := TxInfo(r.0, autoCommit)]
  {
    (tm.nextId, TxManager(tm.transactions[tm.nextId := TxInfo(tm.nextId, autoCommit)], tm.nextId + 1))
  }
}

=== FILE: wrappers.dfy ===
/** Optional values, as java.util.Optional is used by the coordinator. */
module Wrappers {

  datatype Option<+T> = None | Some(value: T)
}
